=== FILE: README.md ===
# Emotional Cartography: journey state store and stage logic in Dafny

The page is a scroll-driven narrative ("scrollytelling"). Its state lives in
one store. The store holds the scroll progress, the loaded chapter list, an
audio flag, the current clip id and the stage of a cosmetic analysis
animation. Two pure queries read the store. One finds the **current
chapter**: the first chapter in list order whose half-open interval
`[scrollStart, scrollEnd)` contains the progress. The other gives the
**chapter progress**: how far the scroll progress is through that chapter,
or 0 when there is none. A visualiser walks the stage from idle through
extracting and clustering to complete, on timeouts of 500, 2000 and 3500 ms
after each new spectrogram. Three panels appear in nested order as it goes,
and feature bars show a value as a capped percentage of a fixed maximum.

The model is functional. The store is an immutable `JourneyState`. Every
setter is a pure state-to-state function built on a shallow merge of a
partial record (`Patch`), the way the store's `set` merges. Numbers are
Dafny `real`, the exact-arithmetic idealisation of the page's floating-point
numbers.

Files:

- `types.dfy` (`JourneyTypes`): the chapter, cluster, narrative, feature
  and stage records; the containment test `Contains`.
- `journey_store.dfy` (`JourneyStore`): the state, the setters, the
  first-match scan (recursive and as a loop), the two queries and their
  properties.
- `chapter_layout.dfy` (`ChapterLayout`): disjoint and contiguous chapter
  lists. On them the first match is the only match, and the chapters cover
  exactly `[first start, last end)`.
- `ml_visualizer.dfy` (`MLVisualizer`): stage order, visibility conditions,
  timer schedule, feature-bar percentage.
- `fixtures.dfy` (`Fixtures`): the five placeholder chapters, a two-chapter
  boundary scenario, and the default feature values.

Chapter progress is 0 both when no chapter is current and when the progress
equals the current chapter's `scrollStart`. `Fixtures.BoundaryScenario` shows
the second case at 0.3.

## Model

| member | source | states |
|---|---|---|
| JourneyStore.InitialQueries | emotional-cartography/src/stores/journeyStore.ts:30-47 | The store starts at progress 0, with no chapters, audio off, no clip and stage idle. In that state there is no current chapter and chapter progress is 0. |
| JourneyStore.Merge | emotional-cartography/src/stores/journeyStore.ts:30-47 | A `set` call's partial state is shallow-merged. Each field the patch names takes the patch's value, and each field it does not name keeps the old value. |
| JourneyStore.MergeNothing | emotional-cartography/src/stores/journeyStore.ts:30-47 | Merging an empty partial state leaves the state unchanged. |
| JourneyStore.MergeOverride | emotional-cartography/src/stores/journeyStore.ts:30-47 | If a later patch names every field an earlier one named, the earlier merge leaves no trace. |
| JourneyStore.MergeCommute | emotional-cartography/src/stores/journeyStore.ts:30-47 | Two patches that name different fields give the same state in either order. |
| JourneyStore.SetScrollProgress | emotional-cartography/src/stores/journeyStore.ts:33 | The new progress is stored exactly as given, with no clamping to [0,1]. Every other field is unchanged. |
| JourneyStore.SetChapters | emotional-cartography/src/stores/journeyStore.ts:37 | The list is stored unvalidated and replaces the old one. The scroll progress and every other field are unchanged. |
| JourneyStore.ToggleAudio | emotional-cartography/src/stores/journeyStore.ts:41 | The audio flag is negated and nothing else changes. |
| JourneyStore.ToggleAudioInvolution | emotional-cartography/src/stores/journeyStore.ts:41 | Toggling twice gives back the original state. |
| JourneyStore.SetCurrentClip | emotional-cartography/src/stores/journeyStore.ts:43 | The clip id, or its absence, replaces the old one. Every other field is unchanged. |
| JourneyStore.SetMlStage | emotional-cartography/src/stores/journeyStore.ts:47 | The stage is replaced. Every other field is unchanged. |
| JourneyStore.LastWriteWins | emotional-cartography/src/stores/journeyStore.ts:33-47 | For each of the four value setters (progress, chapters, clip, stage), two writes leave only the second. |
| JourneyStore.SettersCommute | emotional-cartography/src/stores/journeyStore.ts:33-47 | All ten pairs of the five setters, each pair touching different fields, give the same state in either order. |
| JourneyStore.FirstMatch | emotional-cartography/src/stores/journeyStore.ts:53-55 | The scan finds nothing exactly when no chapter's half-open interval contains p. Otherwise it returns the first index, in list order, of a chapter that contains p. |
| JourneyStore.FindFirstMatch | emotional-cartography/src/stores/journeyStore.ts:53-55 | The scan written as a loop returns the same first-match index, or none when nothing contains p. |
| JourneyStore.FirstMatchIsUnique | emotional-cartography/src/stores/journeyStore.ts:53-55 | At most one index can be the first chapter containing p. |
| JourneyStore.FirstMatchCharacterised | emotional-cartography/src/stores/journeyStore.ts:53-55 | The scan returns index i if and only if i is the first chapter containing p. |
| JourneyStore.GetCurrentChapter | emotional-cartography/src/stores/journeyStore.ts:50-57 | The result is none exactly when no chapter contains the progress. This covers an empty list, gaps, and progress equal to the last chapter's end. Otherwise the result is the first containing chapter, and its interval is non-empty. |
| JourneyStore.GetChapterProgress | emotional-cartography/src/stores/journeyStore.ts:59-70 | With no current chapter the result is 0. With one, the result times the chapter's length equals progress minus start, for the very chapter `GetCurrentChapter` returns. It then lies in [0,1) and is 0 exactly when the progress equals the chapter's start. |
| JourneyStore.ProgressScalesBack | emotional-cartography/src/stores/journeyStore.ts:62-69 | When c is the current chapter, c's length is positive, so the division is safe. Chapter progress equals (progress − start)/(end − start) of that chapter. |
| JourneyStore.EarlierChapterWins | emotional-cartography/src/stores/journeyStore.ts:53-55 | When two chapters both contain the progress, the later-listed one is never chosen and some chapter is current. |
| JourneyStore.MalformedNeverCurrent | emotional-cartography/src/stores/journeyStore.ts:53-69 | A chapter with scrollEnd ≤ scrollStart is never the match, so the chapter-progress division never uses a zero or negative length. |
| JourneyStore.SetChaptersIsVisible | emotional-cartography/src/stores/journeyStore.ts:37-70 | Right after the list is replaced, at the unchanged progress, both queries answer from the new list. When the new list covers the progress, the current chapter is its first containing chapter and the progress is that chapter's quotient. When it does not, there is no current chapter and progress is 0. Nothing stale is cached. |
| JourneyStore.SetScrollProgressSelects | emotional-cartography/src/stores/journeyStore.ts:33-57 | After setting progress p, the current chapter is the first chapter containing p, whatever the old progress was. |
| JourneyStore.ProgressOrder | emotional-cartography/src/stores/journeyStore.ts:62-69 | Of two states with the same current chapter, the one with larger scroll progress has larger chapter progress. |
| JourneyStore.ChapterProgressIncreasing | emotional-cartography/src/stores/journeyStore.ts:59-70 | While the same chapter stays first match, chapter progress strictly increases with scroll progress. |
| ChapterLayout.DisjointMatchIsFirst | emotional-cartography/src/stores/journeyStore.ts:53-55 | In a list without overlaps, any chapter containing p is the one the scan returns, so list order does not matter. |
| ChapterLayout.ContiguousAscending | emotional-cartography/src/app/page.tsx:21-137 | In a list of non-empty intervals where each chapter starts at the previous one's end, an earlier chapter ends no later than a later one starts. |
| ChapterLayout.ContiguousIsDisjoint | emotional-cartography/src/app/page.tsx:21-137 | Such contiguous lists have no overlaps. |
| ChapterLayout.ContiguousCoverage | emotional-cartography/src/stores/journeyStore.ts:53-55 | A contiguous list covers p exactly when first start ≤ p < last end. |
| ChapterLayout.CoveredUnfold | emotional-cartography/src/stores/journeyStore.ts:53-55 | A non-empty list covers p exactly when its head or its tail does. |
| MLVisualizer.Rank | emotional-cartography/src/types/index.ts:75 | Each stage's rank is its position in the order idle, extracting, clustering, complete. |
| MLVisualizer.SpectrogramRevealed | emotional-cartography/src/components/MLVisualizer/index.tsx:46 | The spectrogram is uncovered exactly when the stage is past idle. |
| MLVisualizer.FeaturesShown | emotional-cartography/src/components/MLVisualizer/index.tsx:66 | The feature panel is shown exactly in the stages ranked at least clustering. |
| MLVisualizer.ClusterShown | emotional-cartography/src/components/MLVisualizer/index.tsx:96 | The cluster result is shown exactly in the last stage. |
| MLVisualizer.VisibilityNested | emotional-cartography/src/components/MLVisualizer/index.tsx:46-96 | Cluster shown implies features shown, which implies spectrogram revealed. Each condition matches its stage test. |
| MLVisualizer.VisibilityMonotone | emotional-cartography/src/components/MLVisualizer/index.tsx:46-96 | A later stage never hides a panel that an earlier stage shows. |
| MLVisualizer.TimersAscending | emotional-cartography/src/components/MLVisualizer/index.tsx:25-27 | The delays 500 < 2000 < 3500 and the stages they set rise together. The i-th timeout sets the stage of rank i + 1. |
| MLVisualizer.Fired | emotional-cartography/src/components/MLVisualizer/index.tsx:25-27 | Every stage fired by time t comes from a timeout whose delay has elapsed, and every elapsed timeout's stage has fired. |
| MLVisualizer.FiredIsPrefix | emotional-cartography/src/components/MLVisualizer/index.tsx:25-27 | For ascending timeouts, the stages fired by time t are those of the timeouts whose delay has elapsed, in order. |
| MLVisualizer.Elapsed | emotional-cartography/src/components/MLVisualizer/index.tsx:25-27 | Counts the leading timeouts whose delay has elapsed: the first n have elapsed and the next one, if any, has not. For ascending timeouts, every later one is still pending too. |
| MLVisualizer.StageAt | emotional-cartography/src/components/MLVisualizer/index.tsx:22-27 | After a new spectrogram, one visualiser's schedule puts the stage at idle before 500 ms, extracting from 500, clustering from 2000 and complete from 3500. |
| MLVisualizer.ApplyStagesKeepsLast | emotional-cartography/src/components/MLVisualizer/index.tsx:23-27 | Replaying stage writes leaves the last stage written and changes no other field. |
| MLVisualizer.EffectAt | emotional-cartography/src/components/MLVisualizer/index.tsx:22-34 | One visualiser's effect resets the stage to idle, then fires the timeouts that have elapsed. The store then holds the scheduled stage and nothing else in it has changed. |
| MLVisualizer.PendingAfter | emotional-cartography/src/components/MLVisualizer/index.tsx:25-33 | Every timeout still pending t1 ms into the old run was scheduled with a delay above t1. It is due its remaining delay after the restart and keeps its stage. |
| MLVisualizer.PendingAfterComplete | emotional-cartography/src/components/MLVisualizer/index.tsx:25-33 | Conversely, every old timeout whose delay is above t1 is still pending after the restart, with its remaining delay. |
| MLVisualizer.PendingAfterByDelay | emotional-cartography/src/components/MLVisualizer/index.tsx:25-33 | The old run's leftover timeouts, counted from the restart, stay in delay order. |
| MLVisualizer.Interleave | emotional-cartography/src/components/MLVisualizer/index.tsx:25-33 | Two lists of pending timeouts combine into one holding exactly the timeouts of both. When both are in delay order, so is the result. When the first is, the timeouts due at any one delay are the first list's followed by the second's: the timeout scheduled earlier fires first on a tie. |
| MLVisualizer.FiringOrderUnique | emotional-cartography/src/components/MLVisualizer/index.tsx:25-33 | Two lists in delay order that hold the same timeouts, in the same order at each delay, are equal. So the contract of `Interleave` determines the firing order. |
| MLVisualizer.RestartSchedule | emotional-cartography/src/components/MLVisualizer/index.tsx:22-34 | With the cleanup, only the new run's three timeouts are pending after a restart. Without it, the old run's leftovers are pending too. The list is in delay order, and at each delay the old run's timeouts come before the new run's, so list order is firing order. |
| MLVisualizer.RestartAt | emotional-cartography/src/components/MLVisualizer/index.tsx:22-34 | After a restart, the stage is the last one fired from the pending timeouts, or idle if none has fired. No other field of the store changes. |
| MLVisualizer.RestartForgetsPrevious | emotional-cartography/src/components/MLVisualizer/index.tsx:29-33 | With the cleanup in place, a restart at any t1 gives the same store as a fresh run. The stage is `StageAt(t2)` whatever the old run reached. |
| MLVisualizer.StaleTimeoutWithoutCleanup | emotional-cartography/src/components/MLVisualizer/index.tsx:29-33 | Without the cleanup, a restart at 2800 ms leaves the old 3500 ms timeout pending. 700 ms after the restart the stage is complete, where the fresh schedule and the cleaned-up restart show extracting. |
| MLVisualizer.StageAtMonotone | emotional-cartography/src/components/MLVisualizer/index.tsx:22-34 | Over one visualiser's schedule the stage only moves forward, and each visibility condition once true stays true. |
| MLVisualizer.StageAtVisitsPipeline | emotional-cartography/src/components/MLVisualizer/index.tsx:25-27 | Every stage is shown, in pipeline order, at the delays of its timeout. |
| MLVisualizer.Min | emotional-cartography/src/components/MLVisualizer/index.tsx:126 | The result is one of the two arguments and no greater than either. |
| MLVisualizer.FeatureBarPercentage | emotional-cartography/src/components/MLVisualizer/index.tsx:126 | The width is the lesser of value/max·100 and 100, so it never exceeds 100. |
| MLVisualizer.FeatureBarSaturates | emotional-cartography/src/components/MLVisualizer/index.tsx:126 | With max > 0 and value ≥ max the bar is exactly 100. |
| MLVisualizer.FeatureBarProportional | emotional-cartography/src/components/MLVisualizer/index.tsx:126 | With max > 0 and 0 ≤ value ≤ max the bar is value/max·100, inside [0,100]. |
| MLVisualizer.FeatureBarMonotone | emotional-cartography/src/components/MLVisualizer/index.tsx:126 | For a fixed positive max, the width does not decrease as the value grows. |
| MLVisualizer.FeatureBarNegative | emotional-cartography/src/components/MLVisualizer/index.tsx:126 | There is no lower clamp: a negative value gives a negative width. |
| MLVisualizer.FeaturePanel | emotional-cartography/src/components/MLVisualizer/index.tsx:76-88 | The four bars show the clip's spectral centroid, zero-crossing rate, RMS energy and tempo, under their captions. Each bar's width is that value's percentage against its maximum (5000, 0.2, 0.1, 200), at most 100. |
| Fixtures.PlaceholderLayout | emotional-cartography/src/app/page.tsx:21-137 | The five placeholder chapters are well-formed and contiguous, spanning 0.1 to 0.85. |
| Fixtures.PlaceholderGaps | emotional-cartography/src/app/page.tsx:21-137 | With the placeholder chapters, there is no current chapter exactly when progress is below 0.1 or at least 0.85. Chapter progress is then 0. |
| Fixtures.PlaceholderCurrent | emotional-cartography/src/app/page.tsx:21-137 | With the placeholder chapters, the chapter whose interval holds the progress is the current one. |
| Fixtures.PlaceholderLoad | emotional-cartography/src/app/page.tsx:171-174 | Loading the fallback chapters at start leaves nothing current. At 0.25 the second chapter is current with progress 0. |
| Fixtures.BoundaryScenario | emotional-cartography/src/stores/journeyStore.ts:50-70 | For chapters [0,0.3) and [0.3,0.6): at 0.29 the first is current with progress 29/30; at 0.3 the second is current with progress 0; at 0.95 none is current and progress is 0. |
| Fixtures.DefaultFeaturePanel | emotional-cartography/src/app/page.tsx:144-152 | The default features give bars of 50, 40, 45 and 60 percent. |

## Left out

- Timer ordering on ties: when an old and a new timeout fall due at the same moment, the model fires the earlier-scheduled one first (`Interleave`). That is the browser's timer-queue order, which the component does not state itself.
- The map camera, path and overlay (`MapCanvas.tsx`) are calls into the map library, with no logic of their own.
- Audio playback and fades (`AudioEngine.tsx`) are calls into the audio library and timeouts. When a clip has no waveform, a random placeholder waveform is drawn (`AudioEngine.tsx`, lines 86-89).
- The scroll source (`ScrollManager.tsx`) is a scroll-library callback. It is modelled only as an arbitrary `real` passed to `SetScrollProgress`.
- Markup and animation (`NarrativePanel.tsx`, `layout.tsx`, the visualiser's JSX, the placeholder spectrogram's sine-shaped bar heights, the confidence text formatting) are presentation only.
- The journey data fetch and its fallback (`page.tsx` lines 159-175) are network I/O. Only the placeholder data and the fact that a list is passed to `SetChapters` are used.
- The offline feature extraction and clustering pipeline (`precompute.py`) is floating-point numerics over libraries that are not part of this model.
- The older scaffold copy of the store (`emotional-cartography-components.tsx` lines 97-119) is not modelled. It has the same setters and the same `getCurrentChapter`. It lacks `getChapterProgress` and adds a `currentChapter` field that nothing writes.
- The store's subscription and re-render machinery is out of scope: the model has no listeners. Each query is a function of one state value.
- IEEE-754 rounding, NaN and infinities are not modelled. Numbers are exact reals, so, for example, 0.29/0.3 is exactly 29/30.
- The page mounts one visualiser per chapter, and all of them write the single `mlStage` field. Each instance's cleanup cancels only its own timeouts. The schedule members (`StageAt`, `EffectAt`, `RestartForgetsPrevious`, `StageAtMonotone`) describe one instance writing the store alone. With several instances running out of step, the stored stage can move backwards. For example, instance A starts at 0 ms and instance B restarts at 2800 ms: the stage is complete at 3600 ms, from A, and back to clustering at 4800 ms, from B. Interleavings across instances are not modelled.
- Wall-clock time is not modelled. A timeout is its delay and its stage, and time is an integer number of milliseconds since the effect ran.
- FeatureBarPercentage: requires `max != 0`, because a real division by zero has no value. The source would produce an infinity or NaN there. All four call sites pass positive constants (5000, 0.2, 0.1, 200).
- The narrative body and technical-note strings of the placeholder chapters are left empty in `Fixtures`. They are display text that no operation reads.

=== FILE: chapter_layout.dfy ===
/** Properties of the chapter lookup on well-laid-out chapter lists: when the
    intervals do not overlap the first match is the only match, and when they
    are contiguous the chapters together cover exactly [first start, last end). */
module ChapterLayout {
  import opened JourneyTypes
  import opened JourneyStore

  predicate AllWellFormed(chs: seq<Chapter>) {
    forall i :: 0 <= i < |chs| ==> WellFormed(chs[i])
  }

  /** Each chapter starts where the previous one ends. */
  predicate Contiguous(chs: seq<Chapter>) {
    forall i :: 0 < i < |chs| ==> chs[i - 1].scrollEnd == chs[i].scrollStart
  }

  /** No two chapters share a progress value. */
  predicate Disjoint(chs: seq<Chapter>) {
    forall i, j :: 0 <= i < j < |chs| ==>
      chs[i].scrollEnd <= chs[j].scrollStart || chs[j].scrollEnd <= chs[i].scrollStart
  }

  /** In a list without overlaps, a chapter containing p is the current one. */
  lemma DisjointMatchIsFirst(chs: seq<Chapter>, p: real, k: int)
    requires Disjoint(chs)
    requires 0 <= k < |chs| && Contains(chs[k], p)
    ensures FirstMatch(chs, p) == Some(k)
  {
    forall j | 0 <= j < k
      ensures !Contains(chs[j], p)
    {
      assert chs[j].scrollEnd <= chs[k].scrollStart || chs[k].scrollEnd <= chs[j].scrollStart;
    }
    FirstMatchCharacterised(chs, p, k);
  }

  /** Well-formed contiguous chapters are laid out left to right. */
  lemma {:induction false} ContiguousAscending(chs: seq<Chapter>, i: int, j: int)
    requires AllWellFormed(chs) && Contiguous(chs)
    requires 0 <= i < j < |chs|
    ensures chs[i].scrollEnd <= chs[j].scrollStart
    decreases j - i
  {
    if i + 1 < j {
      ContiguousAscending(chs, i, j - 1);
      assert WellFormed(chs[j - 1]);
    }
  }

  lemma ContiguousIsDisjoint(chs: seq<Chapter>)
    requires AllWellFormed(chs) && Contiguous(chs)
    ensures Disjoint(chs)
  {
    forall i, j | 0 <= i < j < |chs|
      ensures chs[i].scrollEnd <= chs[j].scrollStart
    {
      ContiguousAscending(chs, i, j);
    }
  }

  /** Well-formed contiguous chapters cover exactly [first start, last end):
      below the first chapter and from the last chapter's end on there is no
      current chapter, and everywhere in between there is one. */
  lemma {:induction false} ContiguousCoverage(chs: seq<Chapter>, p: real)
    requires |chs| > 0 && AllWellFormed(chs) && Contiguous(chs)
    ensures Covered(chs, p) <==> chs[0].scrollStart <= p < chs[|chs| - 1].scrollEnd
  {
    if |chs| == 1 {
      assert Covered(chs, p) <==> Contains(chs[0], p);
    } else {
      var rest := chs[1..];
      assert AllWellFormed(rest) by {
        forall i | 0 <= i < |rest| ensures WellFormed(rest[i]) {
          assert rest[i] == chs[i + 1];
        }
      }
      assert Contiguous(rest) by {
        forall i | 0 < i < |rest| ensures rest[i - 1].scrollEnd == rest[i].scrollStart {
          assert rest[i - 1] == chs[i] && rest[i] == chs[i + 1];
        }
      }
      ContiguousCoverage(rest, p);
      CoveredUnfold(chs, p);
      ContiguousAscending(chs, 0, |chs| - 1);
      assert WellFormed(chs[|chs| - 1]);
      assert rest[0] == chs[1] && rest[|rest| - 1] == chs[|chs| - 1];
    }
  }

  /** Coverage of a non-empty list: the head or the tail. */
  lemma CoveredUnfold(chs: seq<Chapter>, p: real)
    requires |chs| > 0
    ensures Covered(chs, p) <==> Contains(chs[0], p) || Covered(chs[1..], p)
  {
    if Covered(chs[1..], p) {
      var i :| 0 <= i < |chs[1..]| && Contains(chs[1..][i], p);
      assert chs[i + 1] == chs[1..][i];
    }
    if Covered(chs, p) && !Contains(chs[0], p) {
      var i :| 0 <= i < |chs| && Contains(chs[i], p);
      assert chs[1..][i - 1] == chs[i];
    }
  }
}

=== FILE: fixtures.dfy ===
/** Concrete data the page ships with: the five placeholder chapters used
    when no journey data can be loaded, a two-chapter boundary scenario, and
    the default audio features; with the lookups the store gives on them. */
module Fixtures {
  import opened JourneyTypes
  import opened JourneyStore
  import opened ChapterLayout
  import opened MLVisualizer

  /** A placeholder chapter; the long narrative body and technical note are
      display text and are left empty here. */
  function Placeholder(id: string, country: string, city: string, lon: real, lat: real,
                       dates: string, start: real, end: real, color: string,
                       clusterId: int, clusterLabel: string, confidence: real,
                       headline: string, subtitle: string, clips: seq<string>): Chapter
  {
    Chapter(id, country, city, (lon, lat), dates, start, end, color,
            EmotionCluster(clusterId, clusterLabel, confidence, None),
            ChapterNarrative(headline, subtitle, "", ""), clips)
  }

  /** The fallback chapter list: five contiguous intervals from 0.1 to 0.85. */
  const PlaceholderChapters: seq<Chapter> := [
    Placeholder("ch-singapore", "Singapore", "Singapore", 103.8198, 1.3521,
                "Jan 2020 - Mar 2020", 0.1, 0.25, "#4ECDC4", 1, "Grounded", 0.78,
                "Singapore", "Where it began", ["clip-sg-001", "clip-sg-002"]),
    Placeholder("ch-placeholder-2", "Country 2", "City 2", -58.3816, -34.6037,
                "Apr 2021 - Aug 2021", 0.25, 0.4, "#FF6B6B", 2, "Energetic", 0.85,
                "Buenos Aires", "The year everything changed", ["clip-ar-001"]),
    Placeholder("ch-placeholder-3", "Country 3", "City 3", 121.5654, 25.033,
                "Sep 2021 - Dec 2021", 0.4, 0.55, "#FFE66D", 3, "Contemplative", 0.72,
                "Taipei", "A semester of reflection", ["clip-tw-001"]),
    Placeholder("ch-placeholder-4", "Country 4", "City 4", 77.209, 28.6139,
                "Jan 2022 - Apr 2022", 0.55, 0.7, "#95E1D3", 4, "Curious", 0.81,
                "India", "Sensory overload", ["clip-in-001"]),
    Placeholder("ch-placeholder-5", "Country 5", "City 5", -74.006, 40.7128,
                "May 2022 - Jun 2023", 0.7, 0.85, "#7B61FF", 1, "Determined", 0.88,
                "New York", "The final chapter", ["clip-ny-001"])
  ]

  lemma PlaceholderLayout()
    ensures |PlaceholderChapters| == 5
    ensures AllWellFormed(PlaceholderChapters) && Contiguous(PlaceholderChapters)
    ensures PlaceholderChapters[0].scrollStart == 0.1 && PlaceholderChapters[4].scrollEnd == 0.85
  {
  }

  /** With the placeholder chapters loaded, there is no current chapter
      exactly in the opening section (below 0.1) and in the closing section
      (from 0.85 on). */
  lemma PlaceholderGaps(s: JourneyState)
    requires s.chapters == PlaceholderChapters
    ensures GetCurrentChapter(s).None? <==> s.scrollProgress < 0.1 || 0.85 <= s.scrollProgress
    ensures GetCurrentChapter(s).None? ==> GetChapterProgress(s) == 0.0
  {
    PlaceholderLayout();
    ContiguousCoverage(PlaceholderChapters, s.scrollProgress);
  }

  /** With the placeholder chapters loaded, the chapter whose interval holds
      the progress is the current one. */
  lemma PlaceholderCurrent(s: JourneyState, k: int)
    requires s.chapters == PlaceholderChapters
    requires 0 <= k < 5 && Contains(PlaceholderChapters[k], s.scrollProgress)
    ensures GetCurrentChapter(s) == Some(PlaceholderChapters[k])
  {
    PlaceholderLayout();
    ContiguousIsDisjoint(PlaceholderChapters);
    DisjointMatchIsFirst(PlaceholderChapters, s.scrollProgress, k);
  }

  /** Loading the placeholder chapters at page start: nothing is current at
      progress 0, and scrolling to 0.25 lands at the start of the second
      chapter, not at the end of the first. */
  lemma PlaceholderLoad()
    ensures GetCurrentChapter(SetChapters(Initial, PlaceholderChapters)).None?
    ensures GetCurrentChapter(SetScrollProgress(SetChapters(Initial, PlaceholderChapters), 0.25))
         == Some(PlaceholderChapters[1])
    ensures GetChapterProgress(SetScrollProgress(SetChapters(Initial, PlaceholderChapters), 0.25)) == 0.0
  {
    PlaceholderGaps(SetChapters(Initial, PlaceholderChapters));
    var s := SetScrollProgress(SetChapters(Initial, PlaceholderChapters), 0.25);
    PlaceholderCurrent(s, 1);
  }

  function Bare(id: string, start: real, end: real): Chapter {
    Chapter(id, "", "", (0.0, 0.0), "", start, end, "",
            EmotionCluster(0, "", 0.0, None), ChapterNarrative("", "", "", ""), [])
  }

  /** Two adjacent chapters a = [0, 0.3) and b = [0.3, 0.6). */
  const BoundaryChapters: seq<Chapter> := [Bare("a", 0.0, 0.3), Bare("b", 0.3, 0.6)]

  /** Just before the boundary the first chapter is nearly done; on the
      boundary the second one starts at 0 progress; past the end there is no
      chapter. Progress 0 therefore does not mean "no current chapter". */
  lemma BoundaryScenario()
    ensures var s := SetScrollProgress(SetChapters(Initial, BoundaryChapters), 0.29);
      GetCurrentChapter(s) == Some(BoundaryChapters[0]) && GetChapterProgress(s) == 29.0 / 30.0
    ensures var s := SetScrollProgress(SetChapters(Initial, BoundaryChapters), 0.3);
      GetCurrentChapter(s) == Some(BoundaryChapters[1]) && GetChapterProgress(s) == 0.0
    ensures var s := SetScrollProgress(SetChapters(Initial, BoundaryChapters), 0.95);
      GetCurrentChapter(s).None? && GetChapterProgress(s) == 0.0
  {
    var s1 := SetScrollProgress(SetChapters(Initial, BoundaryChapters), 0.29);
    FirstMatchCharacterised(BoundaryChapters, 0.29, 0);
    ProgressScalesBack(s1, BoundaryChapters[0]);
    var s2 := SetScrollProgress(SetChapters(Initial, BoundaryChapters), 0.3);
    FirstMatchCharacterised(BoundaryChapters, 0.3, 1);
  }

  /** The feature values shown when a clip's own features are missing. */
  const DefaultFeatures := AudioClipFeatures([], 2500.0, 1800.0, 4000.0, 0.08, 0.045, 120.0)

  lemma DefaultFeaturePanel()
    ensures var bars := FeaturePanel(DefaultFeatures);
      && bars[0].percentage == 50.0 && bars[1].percentage == 40.0
      && bars[2].percentage == 45.0 && bars[3].percentage == 60.0
  {
  }
}

=== FILE: journey_store.dfy ===
/** The journey state store: one record of page state, updated by whole-field
    setters that shallow-merge a partial record into the state, and two pure
    queries deriving the current chapter and the progress within it from the
    scroll progress and the chapter list. */
module JourneyStore {
  import opened JourneyTypes

  datatype JourneyState = JourneyState(
    scrollProgress: real,
    chapters: seq<Chapter>,
    isAudioEnabled: bool,
    currentClipId: Option<string>,
    mlStage: MLStage)

  /** The state the store is created with. */
  const Initial := JourneyState(0.0, [], false, None, Idle)

  /** A partial state: the fields a `set` call names. */
  datatype Patch = Patch(
    scrollProgress: Option<real>,
    chapters: Option<seq<Chapter>>,
    isAudioEnabled: Option<bool>,
    currentClipId: Option<Option<string>>,
    mlStage: Option<MLStage>)

  const NoChange := Patch(None, None, None, None, None)

  function Pick<T>(update: Option<T>, current: T): T {
    match update
    case Some(v) => v
    case None => current
  }

  /** Shallow merge of a partial state: every named field is replaced, every
      other field keeps its value. */
  function Merge(s: JourneyState, patch: Patch): (r: JourneyState)
    ensures patch.scrollProgress.Some? ==> r.scrollProgress == patch.scrollProgress.value
    ensures patch.scrollProgress.None? ==> r.scrollProgress == s.scrollProgress
    ensures patch.chapters.Some? ==> r.chapters == patch.chapters.value
    ensures patch.chapters.None? ==> r.chapters == s.chapters
    ensures patch.isAudioEnabled.Some? ==> r.isAudioEnabled == patch.isAudioEnabled.value
    ensures patch.isAudioEnabled.None? ==> r.isAudioEnabled == s.isAudioEnabled
    ensures patch.currentClipId.Some? ==> r.currentClipId == patch.currentClipId.value
    ensures patch.currentClipId.None? ==> r.currentClipId == s.currentClipId
    ensures patch.mlStage.Some? ==> r.mlStage == patch.mlStage.value
    ensures patch.mlStage.None? ==> r.mlStage == s.mlStage
  {
    JourneyState(
      Pick(patch.scrollProgress, s.scrollProgress),
      Pick(patch.chapters, s.chapters),
      Pick(patch.isAudioEnabled, s.isAudioEnabled),
      Pick(patch.currentClipId, s.currentClipId),
      Pick(patch.mlStage, s.mlStage))
  }

  /** Every field patch a names is also named by patch b. */
  predicate Overrides(b: Patch, a: Patch) {
    && (a.scrollProgress.Some? ==> b.scrollProgress.Some?)
    && (a.chapters.Some? ==> b.chapters.Some?)
    && (a.isAudioEnabled.Some? ==> b.isAudioEnabled.Some?)
    && (a.currentClipId.Some? ==> b.currentClipId.Some?)
    && (a.mlStage.Some? ==> b.mlStage.Some?)
  }

  /** No field is named by both patches. */
  predicate Apart(a: Patch, b: Patch) {
    && (a.scrollProgress.None? || b.scrollProgress.None?)
    && (a.chapters.None? || b.chapters.None?)
    && (a.isAudioEnabled.None? || b.isAudioEnabled.None?)
    && (a.currentClipId.None? || b.currentClipId.None?)
    && (a.mlStage.None? || b.mlStage.None?)
  }

  /** An empty patch changes nothing. */
  lemma MergeNothing(s: JourneyState)
    ensures Merge(s, NoChange) == s
  {
  }

  /** A later merge that names every field an earlier one named erases it. */
  lemma MergeOverride(s: JourneyState, a: Patch, b: Patch)
    requires Overrides(b, a)
    ensures Merge(Merge(s, a), b) == Merge(s, b)
  {
  }

  /** Merges of patches naming different fields commute. */
  lemma MergeCommute(s: JourneyState, a: Patch, b: Patch)
    requires Apart(a, b)
    ensures Merge(Merge(s, a), b) == Merge(Merge(s, b), a)
  {
  }

  // ---------------------------------------------------------------------
  // Setters
  // ---------------------------------------------------------------------

  /** Stores the given progress as is: no clamping to [0, 1]. */
  function SetScrollProgress(s: JourneyState, progress: real): (r: JourneyState)
    ensures r.scrollProgress == progress
    ensures r == s.(scrollProgress := progress)
  {
    Merge(s, NoChange.(scrollProgress := Some(progress)))
  }

  /** Replaces the chapter list without validating it and without touching
      the scroll progress. */
  function SetChapters(s: JourneyState, chapters: seq<Chapter>): (r: JourneyState)
    ensures r.chapters == chapters
    ensures r == s.(chapters := chapters)
  {
    Merge(s, NoChange.(chapters := Some(chapters)))
  }

  function ToggleAudio(s: JourneyState): (r: JourneyState)
    ensures r.isAudioEnabled != s.isAudioEnabled
    ensures r.(isAudioEnabled := s.isAudioEnabled) == s
  {
    Merge(s, NoChange.(isAudioEnabled := Some(!s.isAudioEnabled)))
  }

  function SetCurrentClip(s: JourneyState, clipId: Option<string>): (r: JourneyState)
    ensures r.currentClipId == clipId
    ensures r == s.(currentClipId := clipId)
  {
    Merge(s, NoChange.(currentClipId := Some(clipId)))
  }

  function SetMlStage(s: JourneyState, stage: MLStage): (r: JourneyState)
    ensures r.mlStage == stage
    ensures r == s.(mlStage := stage)
  {
    Merge(s, NoChange.(mlStage := Some(stage)))
  }

  // ---------------------------------------------------------------------
  // Chapter lookup
  // ---------------------------------------------------------------------

  /** Some chapter of the list contains p. */
  predicate Covered(chs: seq<Chapter>, p: real) {
    exists i :: 0 <= i < |chs| && Contains(chs[i], p)
  }

  /** Index i holds the first chapter in list order that contains p. */
  predicate IsFirstMatch(chs: seq<Chapter>, p: real, i: int) {
    && 0 <= i < |chs|
    && Contains(chs[i], p)
    && forall j :: 0 <= j < i ==> !Contains(chs[j], p)
  }

  /** The left-to-right scan of the chapter list for the first chapter whose
      interval contains p. */
  function FirstMatch(chs: seq<Chapter>, p: real): (r: Option<nat>)
    ensures r.None? <==> !Covered(chs, p)
    ensures r.Some? ==> IsFirstMatch(chs, p, r.value)
  {
    if |chs| == 0 then None
    else if Contains(chs[0], p) then Some(0)
    else
      match FirstMatch(chs[1..], p)
      case None =>
        assert forall i :: 1 <= i < |chs| ==> chs[i] == chs[1..][i - 1];
        None
      case Some(k) =>
        assert forall j :: 1 <= j <= k ==> chs[j] == chs[1..][j - 1];
        Some(k + 1)
  }

  /** The same scan written as a loop over the list. */
  method FindFirstMatch(chs: seq<Chapter>, p: real) returns (r: Option<nat>)
    ensures r.None? <==> !Covered(chs, p)
    ensures r.Some? ==> IsFirstMatch(chs, p, r.value)
    ensures r == FirstMatch(chs, p)
  {
    var i := 0;
    while i < |chs|
      invariant 0 <= i <= |chs|
      invariant forall j :: 0 <= j < i ==> !Contains(chs[j], p)
    {
      if Contains(chs[i], p) {
        r := Some(i);
        FirstMatchIsUnique(chs, p, i, FirstMatch(chs, p).value);
        return;
      }
      i := i + 1;
    }
    r := None;
  }

  /** There is only one first match. */
  lemma FirstMatchIsUnique(chs: seq<Chapter>, p: real, i: int, k: int)
    requires IsFirstMatch(chs, p, i) && IsFirstMatch(chs, p, k)
    ensures i == k
  {
  }

  /** The scan finds index i exactly when i is the first containing chapter. */
  lemma FirstMatchCharacterised(chs: seq<Chapter>, p: real, i: int)
    ensures FirstMatch(chs, p) == Some(i) <==> IsFirstMatch(chs, p, i)
  {
    if IsFirstMatch(chs, p, i) {
      FirstMatchIsUnique(chs, p, i, FirstMatch(chs, p).value);
    }
  }

  // ---------------------------------------------------------------------
  // Queries
  // ---------------------------------------------------------------------

  /** The current chapter: the first listed chapter whose half-open interval
      contains the scroll progress, or none. */
  function GetCurrentChapter(s: JourneyState): (r: Option<Chapter>)
    ensures r.None? <==> !Covered(s.chapters, s.scrollProgress)
    ensures r.Some? ==>
      exists i :: IsFirstMatch(s.chapters, s.scrollProgress, i) && r.value == s.chapters[i]
    ensures r.Some? ==> WellFormed(r.value)
  {
    match FirstMatch(s.chapters, s.scrollProgress)
    case None => None
    case Some(i) => Some(s.chapters[i])
  }

  /** How far through the current chapter the scroll progress is, or 0 when
      there is no current chapter. The division is by the matched chapter's
      length, which containment makes positive. */
  function GetChapterProgress(s: JourneyState): (r: real)
    ensures GetCurrentChapter(s).None? ==> r == 0.0
    ensures GetCurrentChapter(s).Some? ==>
      var c := GetCurrentChapter(s).value;
      && ShareOf(r, s.scrollProgress - c.scrollStart, c.scrollEnd - c.scrollStart)
      && 0.0 <= r < 1.0
      && (r == 0.0 <==> s.scrollProgress == c.scrollStart)
  {
    match FirstMatch(s.chapters, s.scrollProgress)
    case None => 0.0
    case Some(i) =>
      var c := s.chapters[i];
      var duration := c.scrollEnd - c.scrollStart;
      var within := s.scrollProgress - c.scrollStart;
      MatchIsCurrent(s, i);
      Fraction(within, duration)
  }

  /** The scan's match is the current chapter, and it contains the progress. */
  lemma MatchIsCurrent(s: JourneyState, i: nat)
    requires FirstMatch(s.chapters, s.scrollProgress) == Some(i)
    ensures i < |s.chapters| && GetCurrentChapter(s) == Some(s.chapters[i])
    ensures 0.0 <= s.scrollProgress - s.chapters[i].scrollStart < s.chapters[i].scrollEnd - s.chapters[i].scrollStart
  {
  }

  /** q is the share x makes of d: q times d is x. */
  predicate ShareOf(q: real, x: real, d: real) {
    q * d == x
  }

  /** The share x of d, for 0 <= x < d. */
  function Fraction(x: real, d: real): (q: real)
    requires 0.0 <= x < d
    ensures ShareOf(q, x, d)
    ensures 0.0 <= q < 1.0
    ensures q == 0.0 <==> x == 0.0
  {
    FractionBounds(x, d);
    x / d
  }

  /** For 0 <= x < d the quotient x/d lies in [0, 1) and is 0 only for x = 0. */
  lemma FractionBounds(x: real, d: real)
    requires 0.0 <= x < d
    ensures x / d * d == x
    ensures 0.0 <= x / d < 1.0
    ensures x / d == 0.0 <==> x == 0.0
  {
    var q := x / d;
    assert q * d == x;
    if q >= 1.0 {
      assert q * d == d + (q - 1.0) * d;
      ProductNonNegative(q - 1.0, d);
    }
  }

  lemma ProductNonNegative(a: real, b: real)
    requires 0.0 <= a && 0.0 <= b
    ensures 0.0 <= a * b
  {
  }

  /** Dividing by a positive number preserves strict order. */
  lemma QuotientOrder(x: real, y: real, d: real)
    requires 0.0 < d && x < y
    ensures x / d < y / d
  {
  }

  // ---------------------------------------------------------------------
  // Properties of the store
  // ---------------------------------------------------------------------

  /** In the initial state there is no current chapter and progress is 0. */
  lemma InitialQueries()
    ensures Initial.scrollProgress == 0.0 && Initial.chapters == []
    ensures !Initial.isAudioEnabled && Initial.currentClipId.None? && Initial.mlStage == Idle
    ensures GetCurrentChapter(Initial).None?
    ensures GetChapterProgress(Initial) == 0.0
  {
  }

  /** Toggling twice restores the state. */
  lemma ToggleAudioInvolution(s: JourneyState)
    ensures ToggleAudio(ToggleAudio(s)) == s
  {
  }

  /** When two chapters both contain p, the later one is never current. */
  lemma EarlierChapterWins(s: JourneyState, i: int, j: int)
    requires 0 <= i < j < |s.chapters|
    requires Contains(s.chapters[i], s.scrollProgress)
    requires Contains(s.chapters[j], s.scrollProgress)
    ensures FirstMatch(s.chapters, s.scrollProgress) != Some(j)
    ensures GetCurrentChapter(s).Some?
  {
  }

  /** A chapter with an empty or reversed interval is never current. */
  lemma MalformedNeverCurrent(s: JourneyState, i: int)
    requires 0 <= i < |s.chapters|
    requires !WellFormed(s.chapters[i])
    ensures FirstMatch(s.chapters, s.scrollProgress) != Some(i)
  {
  }

  /** After the chapter list is replaced, both queries answer from the new
      list at the unchanged scroll progress: its first containing chapter
      when there is one, and no chapter with progress 0 when there is none. */
  lemma SetChaptersIsVisible(s: JourneyState, chapters: seq<Chapter>)
    ensures SetChapters(s, chapters).scrollProgress == s.scrollProgress
    ensures forall i :: IsFirstMatch(chapters, s.scrollProgress, i) ==>
      && GetCurrentChapter(SetChapters(s, chapters)) == Some(chapters[i])
      && GetChapterProgress(SetChapters(s, chapters))
         == (s.scrollProgress - chapters[i].scrollStart) / (chapters[i].scrollEnd - chapters[i].scrollStart)
    ensures !Covered(chapters, s.scrollProgress) ==>
      GetCurrentChapter(SetChapters(s, chapters)).None? && GetChapterProgress(SetChapters(s, chapters)) == 0.0
  {
    var t := SetChapters(s, chapters);
    assert t.chapters == chapters && t.scrollProgress == s.scrollProgress;
    forall i | IsFirstMatch(chapters, s.scrollProgress, i)
      ensures GetCurrentChapter(t) == Some(chapters[i])
      ensures GetChapterProgress(t)
           == (s.scrollProgress - chapters[i].scrollStart) / (chapters[i].scrollEnd - chapters[i].scrollStart)
    {
      FirstMatchCharacterised(chapters, s.scrollProgress, i);
      ProgressScalesBack(t, chapters[i]);
    }
  }

  /** Setting the progress to a value inside the first containing chapter makes
      that chapter current, whatever the progress was before. */
  lemma SetScrollProgressSelects(s: JourneyState, p: real, i: int)
    requires IsFirstMatch(s.chapters, p, i)
    ensures GetCurrentChapter(SetScrollProgress(s, p)) == Some(s.chapters[i])
  {
    FirstMatchCharacterised(s.chapters, p, i);
  }

  lemma ProgressScalesBack(s: JourneyState, c: Chapter)
    requires GetCurrentChapter(s) == Some(c)
    ensures 0.0 < c.scrollEnd - c.scrollStart
    ensures GetChapterProgress(s) == (s.scrollProgress - c.scrollStart) / (c.scrollEnd - c.scrollStart)
  {
  }

  lemma ProgressOrder(s1: JourneyState, s2: JourneyState, c: Chapter)
    requires GetCurrentChapter(s1) == Some(c) && GetCurrentChapter(s2) == Some(c)
    requires s1.scrollProgress < s2.scrollProgress
    ensures GetChapterProgress(s1) < GetChapterProgress(s2)
  {
    ProgressScalesBack(s1, c);
    ProgressScalesBack(s2, c);
    QuotientOrder(s1.scrollProgress - c.scrollStart, s2.scrollProgress - c.scrollStart, c.scrollEnd - c.scrollStart);
  }

  /** Inside one chapter, chapter progress grows strictly with scroll progress. */
  lemma ChapterProgressIncreasing(s: JourneyState, p1: real, p2: real, i: int)
    requires IsFirstMatch(s.chapters, p1, i) && IsFirstMatch(s.chapters, p2, i)
    requires p1 < p2
    ensures GetChapterProgress(SetScrollProgress(s, p1)) < GetChapterProgress(SetScrollProgress(s, p2))
  {
    var c := s.chapters[i];
    var s1, s2 := SetScrollProgress(s, p1), SetScrollProgress(s, p2);
    FirstMatchCharacterised(s1.chapters, p1, i);
    FirstMatchCharacterised(s2.chapters, p2, i);
    ProgressOrder(s1, s2, c);
  }

  /** A later write to the same field overrides an earlier one, for every
      setter that writes a given value. */
  lemma LastWriteWins(s: JourneyState, p1: real, p2: real, c1: seq<Chapter>, c2: seq<Chapter>,
                      k1: Option<string>, k2: Option<string>, m1: MLStage, m2: MLStage)
    ensures SetScrollProgress(SetScrollProgress(s, p1), p2) == SetScrollProgress(s, p2)
    ensures SetChapters(SetChapters(s, c1), c2) == SetChapters(s, c2)
    ensures SetCurrentClip(SetCurrentClip(s, k1), k2) == SetCurrentClip(s, k2)
    ensures SetMlStage(SetMlStage(s, m1), m2) == SetMlStage(s, m2)
  {
    MergeOverride(s, NoChange.(scrollProgress := Some(p1)), NoChange.(scrollProgress := Some(p2)));
    MergeOverride(s, NoChange.(chapters := Some(c1)), NoChange.(chapters := Some(c2)));
    MergeOverride(s, NoChange.(currentClipId := Some(k1)), NoChange.(currentClipId := Some(k2)));
    MergeOverride(s, NoChange.(mlStage := Some(m1)), NoChange.(mlStage := Some(m2)));
  }

  /** Every two setters of different fields commute: all ten pairs of the
      five setters. */
  lemma SettersCommute(s: JourneyState, p: real, chs: seq<Chapter>, clip: Option<string>, st: MLStage)
    ensures SetChapters(SetScrollProgress(s, p), chs) == SetScrollProgress(SetChapters(s, chs), p)
    ensures ToggleAudio(SetScrollProgress(s, p)) == SetScrollProgress(ToggleAudio(s), p)
    ensures SetCurrentClip(SetScrollProgress(s, p), clip) == SetScrollProgress(SetCurrentClip(s, clip), p)
    ensures SetMlStage(SetScrollProgress(s, p), st) == SetScrollProgress(SetMlStage(s, st), p)
    ensures ToggleAudio(SetChapters(s, chs)) == SetChapters(ToggleAudio(s), chs)
    ensures SetCurrentClip(SetChapters(s, chs), clip) == SetChapters(SetCurrentClip(s, clip), chs)
    ensures SetMlStage(SetChapters(s, chs), st) == SetChapters(SetMlStage(s, st), chs)
    ensures SetCurrentClip(ToggleAudio(s), clip) == ToggleAudio(SetCurrentClip(s, clip))
    ensures SetMlStage(ToggleAudio(s), st) == ToggleAudio(SetMlStage(s, st))
    ensures SetMlStage(SetCurrentClip(s, clip), st) == SetCurrentClip(SetMlStage(s, st), clip)
  {
  }
}

=== FILE: ml_visualizer.dfy ===
/** The decision logic of the analysis visualiser: the order of the four
    stages, the timer schedule that walks through them after a new
    spectrogram is shown, the three nested visibility conditions, and the
    feature-bar percentage. Animation and wall-clock time are left out: a
    timer is its delay and the stage it sets. */
module MLVisualizer {
  import opened JourneyTypes
  import opened JourneyStore

  /** The stages in the order the visualiser walks through them. */
  const Pipeline: seq<MLStage> := [Idle, Extracting, Clustering, Complete]

  /** Position of a stage in the pipeline. */
  function Rank(st: MLStage): (r: nat)
    ensures r < |Pipeline| && Pipeline[r] == st
  {
    match st
    case Idle => 0
    case Extracting => 1
    case Clustering => 2
    case Complete => 3
  }

  // ---------------------------------------------------------------------
  // Visibility
  // ---------------------------------------------------------------------

  /** The spectrogram is uncovered once the stage has left idle. */
  function SpectrogramRevealed(st: MLStage): (revealed: bool)
    ensures revealed <==> Rank(st) >= 1
  {
    st != Idle
  }

  /** The extracted-features panel is mounted in the last two stages. */
  function FeaturesShown(st: MLStage): (shown: bool)
    ensures shown <==> Rank(st) >= 2
  {
    st == Clustering || st == Complete
  }

  /** The cluster result is mounted only in the final stage. */
  function ClusterShown(st: MLStage): (shown: bool)
    ensures shown <==> Rank(st) == |Pipeline| - 1
  {
    st == Complete
  }

  /** Each panel appears only after the one above it. */
  lemma VisibilityNested(st: MLStage)
    ensures ClusterShown(st) ==> FeaturesShown(st)
    ensures FeaturesShown(st) ==> SpectrogramRevealed(st)
    ensures SpectrogramRevealed(st) <==> st != Idle
    ensures FeaturesShown(st) <==> st == Clustering || st == Complete
    ensures ClusterShown(st) <==> st == Complete
  {
  }

  /** Moving forward in the pipeline never hides a panel. */
  lemma VisibilityMonotone(a: MLStage, b: MLStage)
    requires Rank(a) <= Rank(b)
    ensures SpectrogramRevealed(a) ==> SpectrogramRevealed(b)
    ensures FeaturesShown(a) ==> FeaturesShown(b)
    ensures ClusterShown(a) ==> ClusterShown(b)
  {
  }

  // ---------------------------------------------------------------------
  // Stage schedule
  // ---------------------------------------------------------------------

  /** A pending timeout: after delayMs milliseconds it sets the stage. */
  datatype Timer = Timer(delayMs: nat, stage: MLStage)

  /** The timeouts scheduled each time the spectrogram changes. */
  const Timers: seq<Timer> := [Timer(500, Extracting), Timer(2000, Clustering), Timer(3500, Complete)]

  /** Delays and stage ranks both strictly increase along the list, so the
      list order is the firing order. */
  predicate Ascending(timers: seq<Timer>) {
    forall i, j :: 0 <= i < j < |timers| ==>
      timers[i].delayMs < timers[j].delayMs && Rank(timers[i].stage) < Rank(timers[j].stage)
  }

  lemma TimersAscending()
    ensures Ascending(Timers)
    ensures forall i :: 0 <= i < |Timers| ==> Rank(Timers[i].stage) == i + 1
  {
  }

  /** The stages set by the timeouts that have fired t milliseconds after the
      effect ran, in firing order. */
  function Fired(timers: seq<Timer>, t: int): (fired: seq<MLStage>)
    ensures |fired| <= |timers|
    ensures forall st :: st in fired ==> exists tm :: tm in timers && tm.delayMs <= t && tm.stage == st
    ensures forall tm :: tm in timers && tm.delayMs <= t ==> tm.stage in fired
  {
    if |timers| == 0 then []
    else (if timers[0].delayMs <= t then [timers[0].stage] else []) + Fired(timers[1..], t)
  }

  /** For ascending timers, the fired stages are exactly the stages of a
      prefix of the list: the timers whose delay has elapsed. */
  lemma {:induction false} FiredIsPrefix(timers: seq<Timer>, t: int, n: nat)
    requires Ascending(timers)
    requires n <= |timers|
    requires forall i :: 0 <= i < n ==> timers[i].delayMs <= t
    requires forall i :: n <= i < |timers| ==> t < timers[i].delayMs
    ensures |Fired(timers, t)| == n
    ensures forall i :: 0 <= i < n ==> Fired(timers, t)[i] == timers[i].stage
  {
    if |timers| > 0 {
      var rest := timers[1..];
      assert Ascending(rest) by {
        forall i, j | 0 <= i < j < |rest|
          ensures rest[i].delayMs < rest[j].delayMs && Rank(rest[i].stage) < Rank(rest[j].stage)
        {
          assert rest[i] == timers[i + 1] && rest[j] == timers[j + 1];
        }
      }
      if n == 0 {
        FiredIsPrefix(rest, t, 0);
      } else {
        FiredIsPrefix(rest, t, n - 1);
      }
    }
  }

  /** The number of leading timeouts whose delay has elapsed by time t. For
      ascending timeouts these are exactly the ones that have fired. */
  function Elapsed(timers: seq<Timer>, t: int): (n: nat)
    ensures n <= |timers|
    ensures forall i :: 0 <= i < n ==> timers[i].delayMs <= t
    ensures n < |timers| ==> t < timers[n].delayMs
    ensures Ascending(timers) ==> forall i :: n <= i < |timers| ==> t < timers[i].delayMs
  {
    if |timers| == 0 || t < timers[0].delayMs then 0
    else
      var rest := timers[1..];
      assert Ascending(timers) ==> Ascending(rest) by {
        if Ascending(timers) {
          forall i, j | 0 <= i < j < |rest|
            ensures rest[i].delayMs < rest[j].delayMs && Rank(rest[i].stage) < Rank(rest[j].stage)
          {
            assert rest[i] == timers[i + 1] && rest[j] == timers[j + 1];
          }
        }
      }
      var n := Elapsed(rest, t);
      assert forall i :: 1 <= i <= n ==> timers[i] == rest[i - 1];
      assert forall i :: n + 1 <= i < |timers| ==> timers[i] == rest[i - 1];
      1 + n
  }

  /** The stage on display t milliseconds after a new spectrogram was shown:
      reset to idle, then the last stage whose timeout has fired. */
  function StageAt(t: int): (st: MLStage)
    ensures t < 500 ==> st == Idle
    ensures 500 <= t < 2000 ==> st == Extracting
    ensures 2000 <= t < 3500 ==> st == Clustering
    ensures 3500 <= t ==> st == Complete
  {
    var fired := Fired(Timers, t);
    var n := Elapsed(Timers, t);
    TimersAscending();
    FiredIsPrefix(Timers, t, n);
    assert Timers[0].delayMs == 500 && Timers[1].delayMs == 2000 && Timers[2].delayMs == 3500;
    assert 0 < n ==> fired[n - 1] == Timers[n - 1].stage;
    if |fired| == 0 then Idle else fired[|fired| - 1]
  }

  /** Replays stage writes in order. */
  function ApplyStages(s: JourneyState, stages: seq<MLStage>): JourneyState
    decreases |stages|
  {
    if |stages| == 0 then s else ApplyStages(SetMlStage(s, stages[0]), stages[1..])
  }

  /** Replaying stage writes leaves the last one and touches nothing else. */
  lemma {:induction false} ApplyStagesKeepsLast(s: JourneyState, stages: seq<MLStage>)
    ensures ApplyStages(s, stages) == s.(mlStage := if |stages| == 0 then s.mlStage else stages[|stages| - 1])
    decreases |stages|
  {
    if |stages| > 0 {
      ApplyStagesKeepsLast(SetMlStage(s, stages[0]), stages[1..]);
    }
  }

  /** The store t milliseconds after the effect of one visualiser ran for a
      new spectrogram: the stage was reset to idle and every elapsed timeout
      then fired. It holds the scheduled stage and nothing else changed. */
  function EffectAt(s: JourneyState, t: int): (r: JourneyState)
    ensures r == s.(mlStage := StageAt(t))
  {
    ApplyStagesKeepsLast(SetMlStage(s, Idle), Fired(Timers, t));
    ApplyStages(SetMlStage(s, Idle), Fired(Timers, t))
  }

  /** The old run's timeouts still pending t1 milliseconds after it started,
      with their delays counted from that moment. */
  function PendingAfter(timers: seq<Timer>, t1: nat): (pending: seq<Timer>)
    ensures |pending| <= |timers|
    ensures forall tm :: tm in pending ==> 0 < tm.delayMs && Timer(tm.delayMs + t1, tm.stage) in timers
  {
    if |timers| == 0 then []
    else
      (if t1 < timers[0].delayMs then [Timer(timers[0].delayMs - t1, timers[0].stage)] else [])
      + PendingAfter(timers[1..], t1)
  }

  /** Conversely, every old timeout not yet due at t1 is still pending. */
  lemma {:induction false} PendingAfterComplete(timers: seq<Timer>, t1: nat, prev: Timer)
    requires prev in timers && t1 < prev.delayMs
    ensures Timer(prev.delayMs - t1, prev.stage) in PendingAfter(timers, t1)
  {
    if prev != timers[0] {
      var k :| 0 <= k < |timers| && timers[k] == prev;
      assert prev == timers[1..][k - 1];
      PendingAfterComplete(timers[1..], t1, prev);
    }
  }

  /** The old run's pending timeouts stay in delay order. */
  lemma {:induction false} PendingAfterByDelay(timers: seq<Timer>, t1: nat)
    requires ByDelay(timers)
    ensures ByDelay(PendingAfter(timers, t1))
  {
    if |timers| > 0 {
      ByDelayFront(timers);
      PendingAfterByDelay(timers[1..], t1);
      var tail := PendingAfter(timers[1..], t1);
      if t1 < timers[0].delayMs {
        var h := Timer(timers[0].delayMs - t1, timers[0].stage);
        forall tm | tm in tail ensures h.delayMs <= tm.delayMs {
          assert Timer(tm.delayMs + t1, tm.stage) in timers;
        }
        InterleaveHead(h, tail, [], tail);
      } else {
        assert PendingAfter(timers, t1) == tail;
      }
    }
  }

  /** Delays never decrease along the list. */
  predicate ByDelay(timers: seq<Timer>) {
    forall i, j :: 0 <= i < j < |timers| ==> timers[i].delayMs <= timers[j].delayMs
  }

  /** The timeouts of the list due at delay d, in list order. */
  function AtDelay(timers: seq<Timer>, d: nat): (due: seq<Timer>)
    ensures |due| <= |timers|
  {
    if |timers| == 0 then []
    else (if timers[0].delayMs == d then [timers[0]] else []) + AtDelay(timers[1..], d)
  }

  lemma AtDelayCons(h: Timer, t: seq<Timer>, d: nat)
    ensures AtDelay([h] + t, d) == (if h.delayMs == d then [h] else []) + AtDelay(t, d)
  {
    assert ([h] + t)[1..] == t;
  }

  /** Nothing in a list in delay order is due before its head. */
  lemma {:induction false} AtDelayBelow(timers: seq<Timer>, d: nat)
    requires ByDelay(timers) && |timers| > 0 && d < timers[0].delayMs
    ensures AtDelay(timers, d) == []
  {
    ByDelayFront(timers);
    if |timers| > 1 {
      AtDelayBelow(timers[1..], d);
    }
  }

  /** Two lists of pending timeouts in firing order: by delay, and on equal
      delays the one scheduled first (from a) fires first. */
  function Interleave(a: seq<Timer>, b: seq<Timer>): (r: seq<Timer>)
    ensures multiset(r) == multiset(a) + multiset(b)
    ensures ByDelay(a) && ByDelay(b) ==> ByDelay(r)
    ensures ByDelay(a) ==> forall d: nat :: AtDelay(r, d) == AtDelay(a, d) + AtDelay(b, d)
    decreases |a| + |b|
  {
    if |a| == 0 then b
    else if |b| == 0 then
      assert forall d: nat :: AtDelay(b, d) == [];
      a
    else if a[0].delayMs <= b[0].delayMs then
      var tail := Interleave(a[1..], b);
      InterleaveStepFirst(a, b, tail);
      [a[0]] + tail
    else
      var tail := Interleave(a, b[1..]);
      InterleaveStepSecond(a, b, tail);
      [b[0]] + tail
  }

  /** One step of `Interleave` that takes the first list's head. */
  lemma InterleaveStepFirst(a: seq<Timer>, b: seq<Timer>, tail: seq<Timer>)
    requires |a| > 0 && |b| > 0 && a[0].delayMs <= b[0].delayMs
    requires multiset(tail) == multiset(a[1..]) + multiset(b)
    requires ByDelay(a[1..]) && ByDelay(b) ==> ByDelay(tail)
    requires ByDelay(a[1..]) ==> forall d: nat :: AtDelay(tail, d) == AtDelay(a[1..], d) + AtDelay(b, d)
    ensures multiset([a[0]] + tail) == multiset(a) + multiset(b)
    ensures ByDelay(a) && ByDelay(b) ==> ByDelay([a[0]] + tail)
    ensures ByDelay(a) ==> forall d: nat :: AtDelay([a[0]] + tail, d) == AtDelay(a, d) + AtDelay(b, d)
  {
    assert a == [a[0]] + a[1..];
    if ByDelay(a) {
      ByDelayFront(a);
      TieFromFirst(a, b, tail);
      if ByDelay(b) {
        ByDelayFront(b);
        InterleaveHead(a[0], a[1..], b, tail);
      }
    }
  }

  /** One step of `Interleave` that takes the second list's head. */
  lemma InterleaveStepSecond(a: seq<Timer>, b: seq<Timer>, tail: seq<Timer>)
    requires |a| > 0 && |b| > 0 && b[0].delayMs < a[0].delayMs
    requires multiset(tail) == multiset(a) + multiset(b[1..])
    requires ByDelay(a) && ByDelay(b[1..]) ==> ByDelay(tail)
    requires ByDelay(a) ==> forall d: nat :: AtDelay(tail, d) == AtDelay(a, d) + AtDelay(b[1..], d)
    ensures multiset([b[0]] + tail) == multiset(a) + multiset(b)
    ensures ByDelay(a) && ByDelay(b) ==> ByDelay([b[0]] + tail)
    ensures ByDelay(a) ==> forall d: nat :: AtDelay([b[0]] + tail, d) == AtDelay(a, d) + AtDelay(b, d)
  {
    assert b == [b[0]] + b[1..];
    if ByDelay(a) {
      TieFromSecond(a, b, tail);
      if ByDelay(b) {
        ByDelayFront(a);
        ByDelayFront(b);
        InterleaveHead(b[0], a, b[1..], tail);
      }
    }
  }

  /** Taking the head of the first list keeps it ahead of everything else due
      at the same delay. */
  lemma TieFromFirst(a: seq<Timer>, b: seq<Timer>, tail: seq<Timer>)
    requires |a| > 0
    requires forall d: nat :: AtDelay(tail, d) == AtDelay(a[1..], d) + AtDelay(b, d)
    ensures forall d: nat :: AtDelay([a[0]] + tail, d) == AtDelay(a, d) + AtDelay(b, d)
  {
    forall d: nat ensures AtDelay([a[0]] + tail, d) == AtDelay(a, d) + AtDelay(b, d) {
      AtDelayCons(a[0], tail, d);
      var h := if a[0].delayMs == d then [a[0]] else [];
      assert h + (AtDelay(a[1..], d) + AtDelay(b, d)) == (h + AtDelay(a[1..], d)) + AtDelay(b, d);
    }
  }

  /** The second list's head is taken only when it is due strictly before the
      first list's, so nothing of the first list is due at its delay. */
  lemma TieFromSecond(a: seq<Timer>, b: seq<Timer>, tail: seq<Timer>)
    requires ByDelay(a) && |a| > 0 && |b| > 0 && b[0].delayMs < a[0].delayMs
    requires forall d: nat :: AtDelay(tail, d) == AtDelay(a, d) + AtDelay(b[1..], d)
    ensures forall d: nat :: AtDelay([b[0]] + tail, d) == AtDelay(a, d) + AtDelay(b, d)
  {
    forall d: nat ensures AtDelay([b[0]] + tail, d) == AtDelay(a, d) + AtDelay(b, d) {
      TieFromSecondAt(a, b, tail, d);
    }
  }

  lemma TieFromSecondAt(a: seq<Timer>, b: seq<Timer>, tail: seq<Timer>, d: nat)
    requires ByDelay(a) && |a| > 0 && |b| > 0 && b[0].delayMs < a[0].delayMs
    requires AtDelay(tail, d) == AtDelay(a, d) + AtDelay(b[1..], d)
    ensures AtDelay([b[0]] + tail, d) == AtDelay(a, d) + AtDelay(b, d)
  {
    AtDelayCons(b[0], tail, d);
    if b[0].delayMs == d {
      AtDelayBelow(a, d);
      AtDelayHead(b);
    } else {
      AtDelayOther(b, d);
    }
  }

  /** A list's head is the first of the timeouts due at its delay. */
  lemma AtDelayHead(timers: seq<Timer>)
    requires |timers| > 0
    ensures AtDelay(timers, timers[0].delayMs) == [timers[0]] + AtDelay(timers[1..], timers[0].delayMs)
  {
  }

  /** A head due at another delay is not among the timeouts due at d. */
  lemma AtDelayOther(timers: seq<Timer>, d: nat)
    requires |timers| > 0 && timers[0].delayMs != d
    ensures AtDelay(timers, d) == AtDelay(timers[1..], d)
  {
    assert AtDelay(timers, d) == [] + AtDelay(timers[1..], d);
  }

  /** A list in delay order is fixed by what it holds at each delay: this is
      why the contract of `Interleave` determines its result. */
  lemma {:induction false} FiringOrderUnique(x: seq<Timer>, y: seq<Timer>)
    requires ByDelay(x) && ByDelay(y)
    requires forall d: nat :: AtDelay(x, d) == AtDelay(y, d)
    ensures x == y
    decreases |x|
  {
    if |x| > 0 {
      assert AtDelay(x, x[0].delayMs)[0] == x[0];
    }
    if |y| > 0 {
      assert AtDelay(y, y[0].delayMs)[0] == y[0];
    }
    if |x| > 0 && |y| > 0 {
      if x[0].delayMs < y[0].delayMs {
        AtDelayBelow(y, x[0].delayMs);
      }
      if y[0].delayMs < x[0].delayMs {
        AtDelayBelow(x, y[0].delayMs);
      }
      assert x[0] == y[0] by {
        assert AtDelay(x, x[0].delayMs)[0] == AtDelay(y, y[0].delayMs)[0];
      }
      forall d: nat ensures AtDelay(x[1..], d) == AtDelay(y[1..], d) {
        var h := if x[0].delayMs == d then [x[0]] else [];
        assert AtDelay(x, d) == h + AtDelay(x[1..], d);
        assert AtDelay(y, d) == h + AtDelay(y[1..], d);
        assert AtDelay(x[1..], d) == AtDelay(x, d)[|h|..];
      }
      ByDelayFront(x);
      ByDelayFront(y);
      FiringOrderUnique(x[1..], y[1..]);
      assert x == [x[0]] + x[1..] && y == [y[0]] + y[1..];
    }
  }

  /** The head of a list in delay order is due no later than any of it, and
      the rest stays in delay order. */
  lemma ByDelayFront(timers: seq<Timer>)
    requires ByDelay(timers) && |timers| > 0
    ensures forall tm :: tm in timers ==> timers[0].delayMs <= tm.delayMs
    ensures ByDelay(timers[1..])
  {
    forall tm | tm in timers ensures timers[0].delayMs <= tm.delayMs {
      var k :| 0 <= k < |timers| && timers[k] == tm;
    }
    var rest := timers[1..];
    forall i, j | 0 <= i < j < |rest| ensures rest[i].delayMs <= rest[j].delayMs {
      assert rest[i] == timers[i + 1] && rest[j] == timers[j + 1];
    }
  }

  /** Putting a timeout no later than everything in the merged tail in front
      keeps the list in delay order. */
  lemma InterleaveHead(h: Timer, a: seq<Timer>, b: seq<Timer>, tail: seq<Timer>)
    requires multiset(tail) == multiset(a) + multiset(b)
    requires ByDelay(tail)
    requires forall tm :: tm in a ==> h.delayMs <= tm.delayMs
    requires forall tm :: tm in b ==> h.delayMs <= tm.delayMs
    ensures ByDelay([h] + tail)
  {
    var r := [h] + tail;
    forall i, j | 0 <= i < j < |r| ensures r[i].delayMs <= r[j].delayMs {
      if i == 0 {
        assert r[j] == tail[j - 1];
        assert tail[j - 1] in multiset(tail);
      } else {
        assert r[i] == tail[i - 1] && r[j] == tail[j - 1];
      }
    }
  }

  /** The store t2 milliseconds after one visualiser got a new spectrogram,
      t1 milliseconds after its previous one. The previous run has reached
      its stage at t1; the effect resets the stage to idle and schedules new
      timeouts. When the cleanup runs, the previous run's pending timeouts
      are cancelled; without it, they fire alongside the new ones. */
  function RestartAt(s: JourneyState, t1: nat, t2: int, cleanup: bool): (r: JourneyState)
    ensures r.(mlStage := s.mlStage) == s
    ensures var fired := Fired(RestartSchedule(t1, cleanup), t2);
      r.mlStage == if |fired| == 0 then Idle else fired[|fired| - 1]
  {
    var fired := Fired(RestartSchedule(t1, cleanup), t2);
    var reset := SetMlStage(EffectAt(s, t1), Idle);
    ApplyStagesKeepsLast(reset, fired);
    assert reset == s.(mlStage := Idle);
    ApplyStages(reset, fired)
  }

  /** The timeouts pending right after the restart, in firing order: the new
      run's, preceded on equal delays by whatever the old run left behind. */
  function RestartSchedule(t1: nat, cleanup: bool): (schedule: seq<Timer>)
    ensures cleanup ==> schedule == Timers
    ensures !cleanup ==> multiset(schedule) == multiset(PendingAfter(Timers, t1)) + multiset(Timers)
    ensures ByDelay(schedule)
    ensures !cleanup ==> forall d: nat :: AtDelay(schedule, d) == AtDelay(PendingAfter(Timers, t1), d) + AtDelay(Timers, d)
  {
    var stale := if cleanup then [] else PendingAfter(Timers, t1);
    assert ByDelay(Timers) by {
      TimersAscending();
    }
    PendingAfterByDelay(Timers, t1);
    assert cleanup ==> Interleave(stale, Timers) == Timers;
    Interleave(stale, Timers)
  }

  /** With the cleanup, the new spectrogram starts over: whenever it came and
      whatever the store showed, the stage follows the fresh schedule. */
  lemma RestartForgetsPrevious(s: JourneyState, t1: nat, t2: int)
    ensures RestartAt(s, t1, t2, true) == EffectAt(s, t2)
    ensures RestartAt(s, t1, t2, true).mlStage == StageAt(t2)
  {
  }

  /** Without the cleanup, a restart 2800 ms into a run leaves the old 3500 ms
      timeout pending: 700 ms after the restart it sets the stage to complete,
      where the fresh schedule shows extracting. */
  lemma StaleTimeoutWithoutCleanup(s: JourneyState)
    ensures RestartAt(s, 2800, 700, false).mlStage == Complete
    ensures StageAt(700) == Extracting
    ensures RestartAt(s, 2800, 700, true).mlStage == Extracting
  {
    StaleFiring();
    RestartForgetsPrevious(s, 2800, 700);
  }

  /** The firing order behind the counterexample: the new 500 ms timeout,
      then the old run's last one. */
  lemma StaleFiring()
    ensures Fired(RestartSchedule(2800, false), 700) == [Extracting, Complete]
  {
    StalePending();
    StaleMerge();
    StaleFired();
  }

  lemma StaleFired()
    ensures Fired([Timer(500, Extracting), Timer(700, Complete), Timer(2000, Clustering), Timer(3500, Complete)], 700)
         == [Extracting, Complete]
  {
    var merged := [Timer(500, Extracting), Timer(700, Complete), Timer(2000, Clustering), Timer(3500, Complete)];
    assert Fired(merged[2..], 700) == [] by {
      assert Fired(merged[3..], 700) == [] by {
        assert merged[3..][1..] == [];
      }
    }
    assert Fired(merged[1..], 700) == [Complete] by {
      assert merged[1..][1..] == merged[2..];
    }
  }

  /** Only the old 3500 ms timeout is pending 2800 ms into a run. */
  lemma StalePending()
    ensures PendingAfter(Timers, 2800) == [Timer(700, Complete)]
  {
    assert Timers[1..][1..][1..] == [];
  }

  lemma StaleMerge()
    ensures Interleave([Timer(700, Complete)], Timers)
         == [Timer(500, Extracting), Timer(700, Complete), Timer(2000, Clustering), Timer(3500, Complete)]
  {
    StaleMergeTail();
    assert Timers == [Timers[0]] + Timers[1..];
  }

  /** Past the new 500 ms timeout, the old 700 ms one comes first. */
  lemma StaleMergeTail()
    ensures Interleave([Timer(700, Complete)], Timers[1..]) == [Timer(700, Complete)] + Timers[1..]
  {
    assert [Timer(700, Complete)][1..] == [];
  }

  /** The stage only moves forward while the timeouts fire. */
  lemma StageAtMonotone(t1: int, t2: int)
    requires t1 <= t2
    ensures Rank(StageAt(t1)) <= Rank(StageAt(t2))
    ensures SpectrogramRevealed(StageAt(t1)) ==> SpectrogramRevealed(StageAt(t2))
    ensures FeaturesShown(StageAt(t1)) ==> FeaturesShown(StageAt(t2))
    ensures ClusterShown(StageAt(t1)) ==> ClusterShown(StageAt(t2))
  {
    VisibilityMonotone(StageAt(t1), StageAt(t2));
  }

  /** Every stage of the pipeline is on display for some elapsed time, in
      pipeline order. */
  lemma StageAtVisitsPipeline()
    ensures StageAt(0) == Idle && StageAt(500) == Extracting
    ensures StageAt(2000) == Clustering && StageAt(3500) == Complete
    ensures forall i :: 0 <= i < |Timers| ==> StageAt(Timers[i].delayMs) == Pipeline[i + 1]
  {
  }

  // ---------------------------------------------------------------------
  // Feature bars
  // ---------------------------------------------------------------------

  /** The smaller of two numbers. */
  function Min(a: real, b: real): (m: real)
    ensures m <= a && m <= b
    ensures m == a || m == b
  {
    if a <= b then a else b
  }

  /** Width of a feature bar in percent: the value as a share of the bar's
      maximum, capped at 100 from above and not bounded from below. */
  function FeatureBarPercentage(value: real, max: real): (pct: real)
    requires max != 0.0
    ensures pct <= 100.0
    ensures pct <= value / max * 100.0
    ensures pct == 100.0 || pct == value / max * 100.0
  {
    Min(value / max * 100.0, 100.0)
  }

  /** At or beyond the maximum the bar is full. */
  lemma FeatureBarSaturates(value: real, max: real)
    requires 0.0 < max <= value
    ensures FeatureBarPercentage(value, max) == 100.0
  {
    assert value / max >= 1.0 by {
      QuotientAtLeastOne(value, max);
    }
  }

  lemma QuotientAtLeastOne(x: real, d: real)
    requires 0.0 < d <= x
    ensures x / d >= 1.0
  {
  }

  /** Within [0, max] the bar is proportional to the value. */
  lemma FeatureBarProportional(value: real, max: real)
    requires 0.0 < max && 0.0 <= value <= max
    ensures FeatureBarPercentage(value, max) == value / max * 100.0
    ensures 0.0 <= FeatureBarPercentage(value, max) <= 100.0
  {
    assert value / max <= 1.0 by {
      if value < max {
        FractionBounds(value, max);
      }
    }
  }

  /** A larger value never gives a shorter bar. */
  lemma FeatureBarMonotone(v1: real, v2: real, max: real)
    requires 0.0 < max && v1 <= v2
    ensures FeatureBarPercentage(v1, max) <= FeatureBarPercentage(v2, max)
  {
    if v1 < v2 {
      QuotientOrder(v1, v2, max);
    }
  }

  /** There is no lower clamp: a negative value gives a negative width. */
  lemma FeatureBarNegative(value: real, max: real)
    requires 0.0 < max && value < 0.0
    ensures FeatureBarPercentage(value, max) < 0.0
  {
    QuotientOrder(value, 0.0, max);
  }

  /** One bar of the extracted-features panel. */
  datatype FeatureBarView = FeatureBarView(caption: string, value: real, percentage: real)

  /** The captions of the four bars, top left to bottom right. */
  const PanelCaptions: seq<string> := ["Spectral Centroid", "Zero Crossing", "RMS Energy", "Tempo"]

  /** The fixed maximum each bar is scaled against. */
  const PanelMax: seq<real> := [5000.0, 0.2, 0.1, 200.0]

  /** The four bars of the panel: each shows its feature value with its
      caption, at the percentage of that value against the bar's maximum. */
  function FeaturePanel(f: AudioClipFeatures): (bars: seq<FeatureBarView>)
    ensures |bars| == |PanelCaptions| == |PanelMax| == 4
    ensures bars[0].value == f.spectralCentroid && bars[1].value == f.zeroCrossingRate
    ensures bars[2].value == f.rmsEnergy && bars[3].value == f.tempo
    ensures forall i :: 0 <= i < 4 ==>
      && bars[i].caption == PanelCaptions[i]
      && bars[i].percentage == FeatureBarPercentage(bars[i].value, PanelMax[i])
      && bars[i].percentage <= 100.0
  {
    [ FeatureBarView("Spectral Centroid", f.spectralCentroid, FeatureBarPercentage(f.spectralCentroid, 5000.0)),
      FeatureBarView("Zero Crossing", f.zeroCrossingRate, FeatureBarPercentage(f.zeroCrossingRate, 0.2)),
      FeatureBarView("RMS Energy", f.rmsEnergy, FeatureBarPercentage(f.rmsEnergy, 0.1)),
      FeatureBarView("Tempo", f.tempo, FeatureBarPercentage(f.tempo, 200.0)) ]
  }
}

=== FILE: types.dfy ===
/** Shapes of the records the journey page works with: chapters, their emotion
    annotation and narrative text, the audio feature record, and the four-value
    stage of the staged reveal.  Numbers are exact reals, the idealisation of
    the page's floating-point numbers. */
module JourneyTypes {

  /** A value or its absence; stands for `T | null` and for optional fields. */
  datatype Option<+T> = None | Some(value: T)

  datatype EmotionCluster = EmotionCluster(
    id: int,
    labelText: string,   // `label` in the source; a Dafny keyword
    confidence: real,
    centroid: Option<(real, real, real)>)

  datatype ChapterNarrative = ChapterNarrative(
    headline: string,
    subtitle: string,
    body: string,
    technicalNote: string)

  /** One narrative segment, active while the overall scroll progress lies in
      the half-open interval [scrollStart, scrollEnd). Nothing forces
      scrollStart < scrollEnd: chapters are loaded as they come. */
  datatype Chapter = Chapter(
    id: string,
    country: string,
    city: string,
    coordinates: (real, real),   // (longitude, latitude)
    dateRange: string,
    scrollStart: real,
    scrollEnd: real,
    color: string,
    emotionCluster: EmotionCluster,
    narrative: ChapterNarrative,
    audioClips: seq<string>)

  datatype AudioClipFeatures = AudioClipFeatures(
    mfcc: seq<real>,
    spectralCentroid: real,
    spectralBandwidth: real,
    spectralRolloff: real,
    zeroCrossingRate: real,
    rmsEnergy: real,
    tempo: real)

  /** The cosmetic analysis phase shown by the visualiser. */
  datatype MLStage = Idle | Extracting | Clustering | Complete

  /** The containment test of the chapter lookup: start inclusive, end exclusive. */
  predicate Contains(c: Chapter, p: real) {
    c.scrollStart <= p < c.scrollEnd
  }

  /** A chapter whose interval is non-empty. */
  predicate WellFormed(c: Chapter) {
    c.scrollStart < c.scrollEnd
  }
}
